=== FILE: README.md ===
# Image scrollbar slice synchronisation

A Dafny model of the slice-synchronisation logic of `CornerstoneImageScrollbar`, the
OHIF Cornerstone extension component that keeps an image scrollbar in step with the
image a viewport shows. The component does three things. When the viewport data
changes, it resolves the current slice: a STACK viewport looks its current image id up
in the data's image ids, and an ORTHOGRAPHIC viewport asks for its volumetric slice
data. It debounces user scrubs into one `jumpToSlice` per quiescence window and writes
the target once the jump resolves. It registers a `STACK_SCROLL` or `VOLUME_NEW_IMAGE`
handler on the viewport element, so that navigation inside the viewport moves the
scrollbar. Finally it derives the `max` it hands to the widget.

The model is a pure state machine. `Controller.Scrollbar` holds the props, the slice
state (`imageSliceData`), the debounce bookkeeping and the registered handlers.
`Controller.Step` applies one `Controller.Event`. The events are a render, a scrub, a
timer firing, a jump resolving or rejecting, the two native events, and unmounting.

Modules:
- `Slices` (slices.dfy): `SliceState` and the scrollbar `max`.
- `Resolver` (resolver.dfy): `indexOf` and the resolution effect.
- `Debouncer` (debouncer.dfy): the runtime's pending timers, the `slideTimeout`
  reference and the in-flight jumps.
- `EventBridge` (event_bridge.dfy): the handlers, their registration and cleanup, and
  event dispatch.
- `Controller` (controller.dfy): the component state, `Step` and its invariant.
- `Properties` (properties.dfy): lemmas over event sequences.

Calls into code that is not modelled become values carried by events.
- `getCornerstoneViewportByIndex`, `getCurrentImageId` and
  `getImageSliceDataForVolumeViewport` are the `Option<LiveViewport>` of a `Rerender`.
- The lookup done by the timer callback is the `viewportFound` flag of a `TimerFire`.
- `jumpToSlice` settling is `JumpComplete` or `JumpFail`.

React compares effect dependencies by object identity. `ViewportData` therefore carries
an `identity` number, so that a fresh data object differs from the old one even when
their contents are equal. The model assumes each identity has one content: a
`viewportData` object is never mutated in place.

The model keeps the code's behaviour where a more defensive design would differ:
- Unmounting does not cancel a pending debounce timer. No cleanup clears
  `slideTimeout`, so the timer still fires and starts its jump
  (`Properties.UnmountKeepsPendingTimer`).
- A change of viewport data does not cancel a pending timer or an in-flight jump either.
- Jump completions carry no token or identity guard. A completion that resolves after
  a newer native event overwrites that event's state
  (`Properties.StaleCompletionOverwritesVolumeEvent`, `Properties.StaleCompletionExample`).
- A completion writes `numberOfSlices` from the slice data captured when the user
  scrubbed. It does not take the current count.
- If the timer callback's viewport lookup fails, the callback throws before
  `jumpToSlice`. The timer is used up and no jump is issued.

## Model

Some functions only compute and carry no contract of their own; the lemmas about them
state their behaviour. `Controller.Step` and `Controller.Rerendered` are covered by
`Controller.StepPreservesInv` and by these `Properties` lemmas: renders by
`RerenderRunsChangedEffects`, `RerenderSamePropsIsNoOp` and `RerenderStackMissKeepsSlice`;
scrubs and timers by `ScrubPathWritesOnlyOnCompletion`, `ScrubBurstLeavesOneTimer` and
`FireSolePending`; settling jumps by `SettleLeavesRestAlone` and `FireSolePending`; native
events by `NativeEventsNeverJump`, `StackScrollWrites` and `VolumeNewImageWrites`; and
unmounting by `UnmountKeepsPendingTimer`.
The handler body `EventBridge.Handle` is covered by `Properties.StackScrollWrites` and
`Properties.VolumeNewImageWrites`. The completion write `Debouncer.Completed` is covered
by `Properties.FireSolePending`. The effect bodies and cleanups `EventBridge.Subscribe`
and `EventBridge.Teardown` are covered by `EventBridge.ResubscribeReplaces` and
`EventBridge.TeardownRemovesSubscriptions`. `Properties.ScrubEvents` only builds
scrub sequences for the debounce lemmas.

| member | source | states |
|---|---|---|
| Slices.ScrollbarMax | extensions/cornerstone/src/Viewport/Overlays/ViewportImageScrollbar.tsx:137-139 | for a non-negative count, `max` equals max(count - 1, 0); `max` is non-negative exactly when the count is; it never exceeds max(count, 0) |
| Slices.ValueWithinScrollbar | extensions/cornerstone/src/Viewport/Overlays/ViewportImageScrollbar.tsx:137-141 | a well-formed position with at least one slice renders a `value` within `[0, max]` |
| Resolver.IndexOf | extensions/cornerstone/src/Viewport/Overlays/ViewportImageScrollbar.tsx:57-58 | `indexOf` gives -1 exactly when the id is absent, and otherwise the position of its first occurrence |
| Resolver.IndexOfIsFirstOccurrence | extensions/cornerstone/src/Viewport/Overlays/ViewportImageScrollbar.tsx:58-62 | for a non-negative i, `indexOf` returns i exactly when i is the first occurrence |
| Resolver.Resolve | extensions/cornerstone/src/Viewport/Overlays/ViewportImageScrollbar.tsx:43-84 | stack hit: count = number of image ids, index = first occurrence of the current id, result well-formed; orthographic with slice data: the data copied verbatim; everything else (no data, no viewport, id missing, no slice data, other type): the prior state unchanged |
| Resolver.ResolveIdempotent | extensions/cornerstone/src/Viewport/Overlays/ViewportImageScrollbar.tsx:43-84 | running the resolution effect twice with the same answers gives the same state as running it once |
| Resolver.ResolveHitForgetsPrior | extensions/cornerstone/src/Viewport/Overlays/ViewportImageScrollbar.tsx:56-82 | on a hit the resolved state does not depend on the prior state |
| Debouncer.AtMostOneTimer | extensions/cornerstone/src/Viewport/Overlays/ViewportImageScrollbar.tsx:19-24 | while every held timer is the referenced one, at most one timer is pending |
| Debouncer.Scrub | extensions/cornerstone/src/Viewport/Overlays/ViewportImageScrollbar.tsx:21-24 | a scrub leaves exactly one pending timer, the fresh one the reference now names, carrying the new target and snapshot; no jump starts |
| Debouncer.Fire | extensions/cornerstone/src/Viewport/Overlays/ViewportImageScrollbar.tsx:24-34 | firing a held timer removes it and, when the viewport is found, starts exactly its jump; with the invariant no timer remains; an unknown id changes nothing |
| Debouncer.Settle | extensions/cornerstone/src/Viewport/Overlays/ViewportImageScrollbar.tsx:34-39 | a settled jump leaves the in-flight collection exactly once; timers are untouched |
| EventBridge.Subscriptions | extensions/cornerstone/src/Viewport/Overlays/ViewportImageScrollbar.tsx:86-132 | the effects register at most one handler: one exactly for STACK or ORTHOGRAPHIC data; it sits on the current element, has captured the current data, and is `STACK_SCROLL` exactly for STACK and `VOLUME_NEW_IMAGE` exactly for ORTHOGRAPHIC |
| EventBridge.AddListener | extensions/cornerstone/src/Viewport/Overlays/ViewportImageScrollbar.tsx:100-103 | after adding, the handler is registered alongside the others and a new handler comes last in registration order; adding one already registered changes nothing |
| EventBridge.RemoveListener | extensions/cornerstone/src/Viewport/Overlays/ViewportImageScrollbar.tsx:105-110 | after removing, that handler is gone and every other handler remains |
| EventBridge.TeardownRemovesSubscriptions | extensions/cornerstone/src/Viewport/Overlays/ViewportImageScrollbar.tsx:105-131 | each cleanup removes the handler its own effect added, leaving nothing registered |
| EventBridge.ResubscribeReplaces | extensions/cornerstone/src/Viewport/Overlays/ViewportImageScrollbar.tsx:86-132 | old cleanups followed by new effect bodies leave exactly the handlers the new data calls for |
| EventBridge.Dispatch | extensions/cornerstone/src/Viewport/Overlays/ViewportImageScrollbar.tsx:91-124 | with no handler for the event on that element the state is unchanged; otherwise the last receiving handler in registration order decides the state, so whenever some handler receives the event the state is what one of them wrote |
| Controller.Mount | extensions/cornerstone/src/Viewport/Overlays/ViewportImageScrollbar.tsx:43-132 | the first render resolves the slice from the parent's data, registers the handlers the data calls for, and starts with no timer and no jump |
| Controller.MountEstablishesInv | extensions/cornerstone/src/Viewport/Overlays/ViewportImageScrollbar.tsx:19-132 | the first render satisfies the invariant (handlers match the props, timers match the reference) |
| Controller.StepPreservesInv | extensions/cornerstone/src/Viewport/Overlays/ViewportImageScrollbar.tsx:21-132 | every event preserves the invariant |
| Controller.RunPreservesInv | extensions/cornerstone/src/Viewport/Overlays/ViewportImageScrollbar.tsx:21-132 | every sequence of events preserves the invariant |
| Properties.ScrubBurstLeavesOneTimer | extensions/cornerstone/src/Viewport/Overlays/ViewportImageScrollbar.tsx:21-24 | after a burst of scrubs exactly one timer is pending, carrying the last target and the slice captured during the burst; no jump starts and the slice is unchanged |
| Properties.FireSolePending | extensions/cornerstone/src/Viewport/Overlays/ViewportImageScrollbar.tsx:24-38 | firing the single pending timer starts exactly its jump and leaves no timer; when that jump resolves, the index becomes its target and the count is its snapshot's |
| Properties.DebounceIssuesOneJump | extensions/cornerstone/src/Viewport/Overlays/ViewportImageScrollbar.tsx:21-40 | firing the pending timer after a burst of scrubs starts exactly one jump, for the last target and the slice captured during the burst, and no timer remains |
| Properties.DebounceExample | extensions/cornerstone/src/Viewport/Overlays/ViewportImageScrollbar.tsx:21-40 | scrubs to 3, 5, 2, 9, 1 produce a single jump, to 1 |
| Properties.NativeEventsNeverJump | extensions/cornerstone/src/Viewport/Overlays/ViewportImageScrollbar.tsx:91-122 | a native event changes only the slice: no timer, no jump, no handler change |
| Properties.ScrubPathWritesOnlyOnCompletion | extensions/cornerstone/src/Viewport/Overlays/ViewportImageScrollbar.tsx:21-40 | scrubbing, a timer firing and a jump failing leave the slice and the handlers unchanged |
| Properties.StackScrollWrites | extensions/cornerstone/src/Viewport/Overlays/ViewportImageScrollbar.tsx:91-97 | `STACK_SCROLL` writes `{newImageIdIndex, number of image ids}` unclamped exactly when a stack viewport is mounted on that element; otherwise the slice is unchanged |
| Properties.VolumeNewImageWrites | extensions/cornerstone/src/Viewport/Overlays/ViewportImageScrollbar.tsx:118-122 | `VOLUME_NEW_IMAGE` writes both fields verbatim exactly when an orthographic viewport is mounted on that element; otherwise the slice is unchanged |
| Properties.ListenersAfterAnyTrace | extensions/cornerstone/src/Viewport/Overlays/ViewportImageScrollbar.tsx:86-132 | after any events from the first render, at most one handler and at most one timer are held; the handler matches the current data, element and viewport type; none remains after unmounting |
| Properties.SwitchStackToVolume | extensions/cornerstone/src/Viewport/Overlays/ViewportImageScrollbar.tsx:86-132 | switching from stack to orthographic data replaces the single `STACK_SCROLL` handler with a single `VOLUME_NEW_IMAGE` handler |
| Properties.SettleLeavesRestAlone | extensions/cornerstone/src/Viewport/Overlays/ViewportImageScrollbar.tsx:34-39 | a jump resolving or rejecting removes exactly that jump from the in-flight collection and leaves timers, reference, handlers, props and mount state unchanged; a rejection also leaves the slice; an unknown jump changes nothing |
| Properties.RerenderRunsChangedEffects | extensions/cornerstone/src/Viewport/Overlays/ViewportImageScrollbar.tsx:43-132 | when `viewportIndex` or `viewportData` changed, the render re-resolves: a stack hit sets `{first occurrence of the current id, number of image ids}`, orthographic slice data is copied; with no hit (no data, no viewport, id missing, no slice data, other type) the slice is kept; unchanged index and data keep the slice; afterwards exactly the handlers the new props call for are registered; the debounce state is untouched |
| Properties.RerenderSamePropsIsNoOp | extensions/cornerstone/src/Viewport/Overlays/ViewportImageScrollbar.tsx:84-132 | rendering again with unchanged dependencies re-runs no effect |
| Properties.RerenderStackMissKeepsSlice | extensions/cornerstone/src/Viewport/Overlays/ViewportImageScrollbar.tsx:56-62 | new stack data whose image ids lack the current image id leaves the slice as it was (not cleared) |
| Properties.UnmountKeepsPendingTimer | extensions/cornerstone/src/Viewport/Overlays/ViewportImageScrollbar.tsx:19-40 | unmounting removes the handlers but keeps the pending timer, which still starts its jump when it fires |
| Properties.StaleCompletionOverwritesVolumeEvent | extensions/cornerstone/src/Viewport/Overlays/ViewportImageScrollbar.tsx:34-38 | a jump that resolves after a newer `VOLUME_NEW_IMAGE` replaces that event's state with its own target and its snapshot's count |
| Properties.StaleCompletionExample | extensions/cornerstone/src/Viewport/Overlays/ViewportImageScrollbar.tsx:34-38 | concretely: `{7, 12}` from the viewport is overwritten by a late completion to `{3, 5}` |

## Left out

- Rendering: the `ImageScrollbar` widget, `scrollbarHeight`, `PropTypes` and React's scheduling are not modelled. Only the `max` and `value` handed to the widget are.
- The viewport service, `getCurrentImageId`, `getImageSliceDataForVolumeViewport` and the internals of `jumpToSlice` are foreign calls. Their answers are values carried by events.
- The 40 ms delay and promise scheduling: there is no time in the model. A timer firing and a jump settling are separate events, and they may interleave with any other event.
- The handler captures `imageSliceData` from the render it belongs to. The model takes the slice state current at the scrub, which assumes the component re-rendered after every write and before the next scrub.
- The timer callback's lookup by the captured `viewportIndex`, and the element the jump targets, are reduced to the `viewportFound` flag.
- Values JavaScript allows but integers do not: an undefined or NaN `numberOfSlices` or index, a missing `imageIds` array on STACK data, a null `element`. Each of these makes the source throw or behave by truthiness, and the model does not represent them.
- Remounting the same component instance after `Unmount` is not modelled. After unmounting, renders and scrubs are ignored, while timers, jumps and native events are still delivered.
- In-place mutation of `viewportData`: the model compares the whole descriptor when deciding whether an effect re-runs, and assumes one identity never carries two contents. In the source, a mutated object keeps its identity, so no effect re-runs and the old stack handler reads the new `imageIds.length` through aliasing. The model does not represent that aliasing.
- DOM `addEventListener` mechanics beyond which handler is registered for which event name on which element.

=== FILE: controller.dfy ===
/** The scrollbar component as one state machine: the props it is rendered with, the
    slice state its parent owns and hands back through `setImageSliceData`, the
    debounce bookkeeping and the registered handlers. Every callback the runtime can
    deliver is an `Event`, and `Step` applies one. */
module Controller {
  import opened Wrappers
  import opened Slices
  import opened Resolver
  import Debouncer
  import opened EventBridge

  /** The props the effects depend on. */
  datatype Props = Props(viewportIndex: int, viewportData: Option<ViewportData>, element: ElementHandle)

  datatype Event =
      /** The component renders with `props`; `viewport` is what the viewport service
          answers for `props.viewportIndex` if the resolution effect runs. */
    | Rerender(props: Props, viewport: Option<LiveViewport>)
      /** The widget reports a user scrub to `imageIndex`. */
    | Scrub(imageIndex: int)
      /** The runtime runs the callback of timer `timer`; `viewportFound` says whether
          its viewport lookup succeeds. */
    | TimerFire(timer: Debouncer.TimerId, viewportFound: bool)
      /** The promise of in-flight jump `jump` resolves, or rejects. */
    | JumpComplete(jump: nat)
    | JumpFail(jump: nat)
      /** Native events dispatched on `element`. */
    | StackScroll(element: ElementHandle, newImageIdIndex: int)
    | VolumeNewImage(element: ElementHandle, imageIndex: int, numberOfSlices: int)
      /** The component unmounts and React runs the effects' cleanups. */
    | Unmount

  datatype Scrollbar = Scrollbar(
    mounted: bool,
    props: Props,
    slice: SliceState,
    debounce: Debouncer.Debounce,
    listeners: seq<Listener>)

  /** The first render: all three effects run, starting from the parent's `initial`
      slice data. */
  function Mount(props: Props, viewport: Option<LiveViewport>, initial: SliceState): (c: Scrollbar)
    ensures c.mounted && c.props == props
    ensures c.slice == Resolve(props.viewportData, viewport, initial)
    ensures c.listeners == Subscriptions(props.viewportData, props.element)
    ensures c.debounce == Debouncer.Idle
  {
    Scrollbar(true, props, Resolve(props.viewportData, viewport, initial), Debouncer.Idle,
              Subscribe([], props.viewportData, props.element))
  }

  /** A later render with `props`. React re-runs an effect only when one of its
      dependencies changed: `[viewportIndex, viewportData]` for the resolution effect,
      `[viewportData, element]` for the two listener effects, whose old cleanups run
      before the new bodies. */
  function Rerendered(c: Scrollbar, props: Props, viewport: Option<LiveViewport>): Scrollbar
  {
    var prior := c.props;
    var slice :=
      if props.viewportIndex != prior.viewportIndex || props.viewportData != prior.viewportData
      then Resolve(props.viewportData, viewport, c.slice)
      else c.slice;
    var listeners :=
      if props.viewportData != prior.viewportData || props.element != prior.element
      then Subscribe(Teardown(c.listeners, prior.viewportData, prior.element), props.viewportData, props.element)
      else c.listeners;
    c.(props := props, slice := slice, listeners := listeners)
  }

  function Step(c: Scrollbar, e: Event): Scrollbar
  {
    match e
    case Rerender(props, viewport) =>
      if c.mounted then Rerendered(c, props, viewport) else c
    case Scrub(index) =>
      if c.mounted then c.(debounce := Debouncer.Scrub(c.debounce, index, c.slice)) else c
    case TimerFire(id, found) =>
      c.(debounce := Debouncer.Fire(c.debounce, id, found))
    case JumpComplete(k) =>
      if k < |c.debounce.inFlight|
      then c.(slice := Debouncer.Completed(c.debounce.inFlight[k]), debounce := Debouncer.Settle(c.debounce, k))
      else c
    case JumpFail(k) =>
      if k < |c.debounce.inFlight| then c.(debounce := Debouncer.Settle(c.debounce, k)) else c
    case StackScroll(element, index) =>
      c.(slice := Dispatch(c.listeners, element, StackScrollDetail(index), c.slice))
    case VolumeNewImage(element, index, count) =>
      c.(slice := Dispatch(c.listeners, element, VolumeNewImageDetail(index, count), c.slice))
    case Unmount =>
      if c.mounted
      then c.(mounted := false, listeners := Teardown(c.listeners, c.props.viewportData, c.props.element))
      else c
  }

  /** Applies `events` in order. */
  function Run(c: Scrollbar, events: seq<Event>): Scrollbar
    decreases |events|
  {
    if |events| == 0 then c else Run(Step(c, events[0]), events[1..])
  }

  /** The handlers registered are exactly those the current props call for while
      mounted, none after unmounting, and at most one debounce timer is held. */
  predicate Inv(c: Scrollbar)
  {
    && Debouncer.Inv(c.debounce)
    && c.listeners == (if c.mounted then Subscriptions(c.props.viewportData, c.props.element) else [])
  }

  lemma MountEstablishesInv(props: Props, viewport: Option<LiveViewport>, initial: SliceState)
    ensures Inv(Mount(props, viewport, initial))
  {
  }

  lemma StepPreservesInv(c: Scrollbar, e: Event)
    requires Inv(c)
    ensures Inv(Step(c, e))
  {
    match e
    case Rerender(props, viewport) =>
      if c.mounted {
        ResubscribeReplaces(c.props.viewportData, c.props.element, props.viewportData, props.element);
      }
    case Unmount =>
      if c.mounted {
        TeardownRemovesSubscriptions(c.props.viewportData, c.props.element);
      }
    case _ =>
  }

  lemma {:induction false} RunPreservesInv(c: Scrollbar, events: seq<Event>)
    requires Inv(c)
    ensures Inv(Run(c, events))
    decreases |events|
  {
    if |events| > 0 {
      StepPreservesInv(c, events[0]);
      RunPreservesInv(Step(c, events[0]), events[1..]);
    }
  }
}

=== FILE: debouncer.dfy ===
/** The debounced scrub path: `onImageScrollbarChange`, the `slideTimeout` reference it
    keeps, the timer callbacks it schedules, and the `jumpToSlice` promises those
    callbacks start. Time and promise scheduling are not modelled: a timer firing and a
    promise settling are events of their own. */
module Debouncer {
  import opened Wrappers
  import opened Slices

  type TimerId = nat

  /** What one scheduled callback carries: the index the user scrubbed to, and the
      `imageSliceData` the handler closed over when it was called. */
  datatype JumpRequest = JumpRequest(target: int, snapshot: SliceState)

  /** `timers` are the callbacks the runtime still holds; `slideTimeout` is the
      component's reference to the last one scheduled; `nextTimerId` is the id the
      runtime hands out next; `inFlight` are the jumps whose promises have not settled. */
  datatype Debounce = Debounce(
    timers: map<TimerId, JumpRequest>,
    slideTimeout: Option<TimerId>,
    nextTimerId: TimerId,
    inFlight: seq<JumpRequest>)

  /** The reference starts out null and the runtime has scheduled nothing. */
  const Idle: Debounce := Debounce(map[], None, 1, [])

  /** Every timer still held is the one the reference points at. */
  predicate Inv(d: Debounce)
  {
    forall id :: id in d.timers ==> d.slideTimeout == Some(id)
  }

  lemma AtMostOneTimer(d: Debounce)
    requires Inv(d)
    ensures |d.timers| <= 1
  {
    if d.slideTimeout.None? {
      assert d.timers.Keys == {};
    } else if d.slideTimeout.value in d.timers {
      assert d.timers.Keys == {d.slideTimeout.value};
    } else {
      assert d.timers.Keys == {};
    }
  }

  /** A scrub to `target`: clear the timer the reference points at, schedule a fresh
      one closing over `target` and `snapshot`, and point the reference at it. */
  function Scrub(d: Debounce, target: int, snapshot: SliceState): (r: Debounce)
    ensures Inv(d) ==> Inv(r)
    ensures Inv(d) ==> r.timers == map[d.nextTimerId := JumpRequest(target, snapshot)]
    ensures r.slideTimeout == Some(d.nextTimerId) && r.nextTimerId == d.nextTimerId + 1
    ensures r.inFlight == d.inFlight
  {
    var cleared := if d.slideTimeout.Some? then d.timers - {d.slideTimeout.value} else d.timers;
    d.(timers := cleared[d.nextTimerId := JumpRequest(target, snapshot)],
       slideTimeout := Some(d.nextTimerId),
       nextTimerId := d.nextTimerId + 1)
  }

  /** Timer `id` fires. Its callback looks the viewport up again; when that lookup
      fails the callback throws before calling `jumpToSlice`, so `viewportFound`
      decides whether a jump starts. The reference is not reset: clearing a timer
      that already fired does nothing. */
  function Fire(d: Debounce, id: TimerId, viewportFound: bool): (r: Debounce)
    ensures id !in d.timers ==> r == d
    ensures id in d.timers ==> id !in r.timers && r.timers.Keys == d.timers.Keys - {id}
    ensures id in d.timers && viewportFound ==> r.inFlight == d.inFlight + [d.timers[id]]
    ensures !viewportFound ==> r.inFlight == d.inFlight
    ensures Inv(d) ==> Inv(r)
    ensures Inv(d) && id in d.timers ==> r.timers == map[]
    ensures r.slideTimeout == d.slideTimeout && r.nextTimerId == d.nextTimerId
  {
    if id !in d.timers then d
    else
      var request := d.timers[id];
      d.(timers := d.timers - {id},
         inFlight := if viewportFound then d.inFlight + [request] else d.inFlight)
  }

  /** Jump `k` settles, by resolving or by rejecting: it leaves the in-flight list. */
  function Settle(d: Debounce, k: nat): (r: Debounce)
    requires k < |d.inFlight|
    ensures |r.inFlight| == |d.inFlight| - 1
    ensures multiset(r.inFlight) + multiset{d.inFlight[k]} == multiset(d.inFlight)
    ensures r.timers == d.timers && r.slideTimeout == d.slideTimeout && r.nextTimerId == d.nextTimerId
  {
    assert d.inFlight == d.inFlight[..k] + [d.inFlight[k]] + d.inFlight[k + 1..];
    d.(inFlight := d.inFlight[..k] + d.inFlight[k + 1..])
  }

  /** The write a resolved jump makes: `{...imageSliceData, imageIndex}` over the
      snapshot the request captured. The count is never recomputed. */
  function Completed(j: JumpRequest): SliceState
  {
    j.snapshot.(imageIndex := j.target)
  }
}

=== FILE: event_bridge.dfy ===
/** The bridge from the viewport's own navigation events to the slice state: the second
    and third `useEffect` of the scrollbar, the handlers they register on the element,
    and the cleanups that remove them. DOM listeners are modelled only as which handler
    is registered for which event name on which element. */
module EventBridge {
  import opened Wrappers
  import opened Slices
  import opened Resolver

  type ElementHandle = nat

  /** `STACK_SCROLL` and `VOLUME_NEW_IMAGE`. */
  datatype EventName = StackScrollEvent | VolumeNewImageEvent

  /** The `detail` of a native event. */
  datatype Detail =
    | StackScrollDetail(newImageIdIndex: int)
    | VolumeNewImageDetail(imageIndex: int, numberOfSlices: int)

  function NameOf(detail: Detail): EventName
  {
    match detail
    case StackScrollDetail(_) => StackScrollEvent
    case VolumeNewImageDetail(_, _) => VolumeNewImageEvent
  }

  /** A registered handler: the event name, the element it was added to, and the
      `viewportData` its closure captured. Each effect run creates a new closure, so
      these three fields identify the handler. */
  datatype Listener = Listener(name: EventName, element: ElementHandle, data: ViewportData)

  /** The state a handler writes: `updateStackIndex` takes the index verbatim and the
      count from the captured image ids; `updateVolumeIndex` takes both verbatim. */
  function Handle(l: Listener, detail: Detail): SliceState
  {
    match detail
    case StackScrollDetail(index) => SliceState(index, |l.data.imageIds|)
    case VolumeNewImageDetail(index, count) => SliceState(index, count)
  }

  /** The handler the stack effect registers for `data` on `element`, if any. */
  function StackSubscription(data: Option<ViewportData>, element: ElementHandle): Option<Listener>
  {
    if data.Some? && data.value.viewportType == Stack
    then Some(Listener(StackScrollEvent, element, data.value))
    else None
  }

  /** The handler the volume effect registers for `data` on `element`, if any. */
  function VolumeSubscription(data: Option<ViewportData>, element: ElementHandle): Option<Listener>
  {
    if data.Some? && data.value.viewportType == Orthographic
    then Some(Listener(VolumeNewImageEvent, element, data.value))
    else None
  }

  function OptionToSeq(o: Option<Listener>): seq<Listener>
  {
    if o.Some? then [o.value] else []
  }

  /** The handlers both effects together keep registered while `data` and `element`
      are current: one kind at most, chosen by the viewport type. */
  function Subscriptions(data: Option<ViewportData>, element: ElementHandle): (ls: seq<Listener>)
    ensures |ls| <= 1
    ensures |ls| == 1 <==> data.Some? && data.value.viewportType != OtherViewportType
    ensures forall l :: l in ls ==> l.element == element && data == Some(l.data)
    ensures forall l :: l in ls ==> (l.name == StackScrollEvent <==> l.data.viewportType == Stack)
    ensures forall l :: l in ls ==> (l.name == VolumeNewImageEvent <==> l.data.viewportType == Orthographic)
  {
    OptionToSeq(StackSubscription(data, element)) + OptionToSeq(VolumeSubscription(data, element))
  }

  /** `addEventListener`: adding a handler that is already registered does nothing. */
  function AddListener(ls: seq<Listener>, l: Listener): (r: seq<Listener>)
    ensures forall x :: x in r <==> x in ls || x == l
    ensures l in ls ==> r == ls
    ensures l !in ls ==> r == ls + [l]
  {
    if l in ls then ls else ls + [l]
  }

  /** `removeEventListener`: the given handler is no longer registered, every other
      one still is. */
  function RemoveListener(ls: seq<Listener>, l: Listener): (r: seq<Listener>)
    ensures forall x :: x in r <==> x in ls && x != l
    ensures |r| <= |ls|
    ensures l !in ls ==> r == ls
  {
    if |ls| == 0 then []
    else (if ls[0] == l then [] else [ls[0]]) + RemoveListener(ls[1..], l)
  }

  function AddOptional(ls: seq<Listener>, o: Option<Listener>): seq<Listener>
  {
    if o.Some? then AddListener(ls, o.value) else ls
  }

  function RemoveOptional(ls: seq<Listener>, o: Option<Listener>): seq<Listener>
  {
    if o.Some? then RemoveListener(ls, o.value) else ls
  }

  /** The bodies of the two effects for `data` and `element`. */
  function Subscribe(ls: seq<Listener>, data: Option<ViewportData>, element: ElementHandle): seq<Listener>
  {
    AddOptional(AddOptional(ls, StackSubscription(data, element)), VolumeSubscription(data, element))
  }

  /** The cleanups the two effects returned for `data` and `element`: each removes the
      handler its own effect added, and an effect that returned early has none. */
  function Teardown(ls: seq<Listener>, data: Option<ViewportData>, element: ElementHandle): seq<Listener>
  {
    RemoveOptional(RemoveOptional(ls, StackSubscription(data, element)), VolumeSubscription(data, element))
  }

  /** Cleaning up exactly what was registered leaves nothing registered. */
  lemma TeardownRemovesSubscriptions(data: Option<ViewportData>, element: ElementHandle)
    ensures Teardown(Subscriptions(data, element), data, element) == []
  {
  }

  /** Cleaning up the old effects and running the new ones leaves exactly the handler
      for the new data registered: the old one never lingers beside it. */
  lemma ResubscribeReplaces(data: Option<ViewportData>, element: ElementHandle,
                            data': Option<ViewportData>, element': ElementHandle)
    ensures Subscribe(Teardown(Subscriptions(data, element), data, element), data', element')
            == Subscriptions(data', element')
  {
    TeardownRemovesSubscriptions(data, element);
  }

  /** `l` is registered for the event `detail` delivered to `element`. */
  predicate Receives(l: Listener, element: ElementHandle, detail: Detail)
  {
    l.name == NameOf(detail) && l.element == element
  }

  /** `ls[i]` receives the event and no handler registered after it does. */
  predicate LastReceiver(ls: seq<Listener>, element: ElementHandle, detail: Detail, i: int)
  {
    && 0 <= i < |ls|
    && Receives(ls[i], element, detail)
    && forall j :: i < j < |ls| ==> !Receives(ls[j], element, detail)
  }

  /** Delivers a native event to `element`: every handler registered for its name on
      that element runs, in registration order, and each one writes the state, so the
      last receiver decides it. */
  function Dispatch(ls: seq<Listener>, element: ElementHandle, detail: Detail, s: SliceState): (r: SliceState)
    ensures (forall l :: l in ls ==> !Receives(l, element, detail)) ==> r == s
    ensures forall i :: LastReceiver(ls, element, detail, i) ==> r == Handle(ls[i], detail)
    ensures (exists l :: l in ls && Receives(l, element, detail)) ==>
              exists l :: l in ls && Receives(l, element, detail) && r == Handle(l, detail)
    // The single-handler case, which is all the invariant ever leaves registered,
    // spelled out so callers need not go through `LastReceiver`.
    ensures forall l :: ls == [l] && Receives(l, element, detail) ==> r == Handle(l, detail)
  {
    if |ls| == 0 then s
    else
      var s' := if Receives(ls[0], element, detail) then Handle(ls[0], detail) else s;
      Dispatch(ls[1..], element, detail, s')
  }
}

=== FILE: properties.dfy ===
/** Properties of the scrollbar over sequences of events: the debounce coalesces a burst
    of scrubs into one jump, the native-event path never starts a jump, one handler kind
    is registered at a time, and what an unguarded jump completion does to newer state. */
module Properties {
  import opened Wrappers
  import opened Slices
  import opened Resolver
  import Debouncer
  import opened EventBridge
  import opened Controller

  function ScrubEvents(targets: seq<int>): (es: seq<Event>)
    ensures |es| == |targets|
    ensures 0 < |targets| ==> es[0] == Scrub(targets[0])
  {
    if |targets| == 0 then [] else [Scrub(targets[0])] + ScrubEvents(targets[1..])
  }

  function Last(targets: seq<int>): int
    requires |targets| > 0
  {
    targets[|targets| - 1]
  }

  /** `b` holds exactly one timer, `id`, the one its reference names, carrying `request`. */
  predicate OnePending(b: Scrollbar, id: Debouncer.TimerId, request: Debouncer.JumpRequest)
  {
    && b.debounce.timers == map[id := request]
    && b.debounce.slideTimeout == Some(id)
    && b.debounce.nextTimerId == id + 1
  }

  /** A burst of scrubs with no timer firing in between leaves exactly one timer
      pending, the one the reference points at, carrying the last target and the slice
      data current during the burst. No jump starts and the slice is untouched. */
  lemma {:induction false} ScrubBurstLeavesOneTimer(c: Scrollbar, targets: seq<int>)
    requires Inv(c) && c.mounted && |targets| > 0
    ensures OnePending(Run(c, ScrubEvents(targets)), c.debounce.nextTimerId + |targets| - 1,
                       Debouncer.JumpRequest(Last(targets), c.slice))
    ensures Run(c, ScrubEvents(targets)).debounce.inFlight == c.debounce.inFlight
    ensures Run(c, ScrubEvents(targets)).slice == c.slice
    ensures Run(c, ScrubEvents(targets)).mounted
    ensures Run(c, ScrubEvents(targets)).props == c.props
    ensures Run(c, ScrubEvents(targets)).listeners == c.listeners
    decreases |targets|
  {
    var c' := Step(c, Scrub(targets[0]));
    assert ScrubEvents(targets)[1..] == ScrubEvents(targets[1..]);
    if |targets| > 1 {
      StepPreservesInv(c, Scrub(targets[0]));
      ScrubBurstLeavesOneTimer(c', targets[1..]);
      assert Last(targets[1..]) == Last(targets);
    }
  }

  /** Firing the one pending timer of `b` starts exactly its jump and leaves no timer;
      when that jump resolves it writes its target over its snapshot. */
  lemma FireSolePending(b: Scrollbar, id: Debouncer.TimerId, request: Debouncer.JumpRequest)
    requires OnePending(b, id, request)
    ensures Step(b, TimerFire(id, true)).debounce.inFlight == b.debounce.inFlight + [request]
    ensures Step(b, TimerFire(id, true)).debounce.timers == map[]
    ensures Step(Step(b, TimerFire(id, true)), JumpComplete(|b.debounce.inFlight|)).slice
            == SliceState(request.target, request.snapshot.numberOfSlices)
  {
    var fired := Step(b, TimerFire(id, true));
    assert fired.debounce.inFlight[|b.debounce.inFlight|] == request;
  }

  /** After such a burst, firing the pending timer starts exactly one jump, for the last
      target and the slice data current during the burst, and no timer remains. */
  lemma DebounceIssuesOneJump(c: Scrollbar, targets: seq<int>)
    requires Inv(c) && c.mounted && |targets| > 0
    ensures Step(Run(c, ScrubEvents(targets)), TimerFire(c.debounce.nextTimerId + |targets| - 1, true)).debounce.inFlight
            == c.debounce.inFlight + [Debouncer.JumpRequest(Last(targets), c.slice)]
    ensures Step(Run(c, ScrubEvents(targets)), TimerFire(c.debounce.nextTimerId + |targets| - 1, true)).debounce.timers
            == map[]
  {
    var burst := Run(c, ScrubEvents(targets));
    var id := c.debounce.nextTimerId + |targets| - 1;
    ScrubBurstLeavesOneTimer(c, targets);
    FireSolePending(burst, id, Debouncer.JumpRequest(Last(targets), c.slice));
  }

  /** Five rapid scrubs to 3, 5, 2, 9 and 1 yield one jump, to 1. */
  lemma DebounceExample(c: Scrollbar)
    requires Inv(c) && c.mounted
    ensures var burst := Run(c, [Scrub(3), Scrub(5), Scrub(2), Scrub(9), Scrub(1)]);
            var fired := Step(burst, TimerFire(c.debounce.nextTimerId + 4, true));
            fired.debounce.inFlight == c.debounce.inFlight + [Debouncer.JumpRequest(1, c.slice)]
  {
    var targets := [3, 5, 2, 9, 1];
    assert ScrubEvents(targets) == [Scrub(3), Scrub(5), Scrub(2), Scrub(9), Scrub(1)];
    DebounceIssuesOneJump(c, targets);
  }

  /** The native-event path only writes the slice: it never schedules a timer, never
      starts a jump and never touches the registered handlers, so it cannot feed back
      into the scrub path. */
  lemma NativeEventsNeverJump(c: Scrollbar, e: Event)
    requires e.StackScroll? || e.VolumeNewImage?
    ensures Step(c, e) == c.(slice := Step(c, e).slice)
  {
  }

  /** The scrub path writes the slice only when a jump resolves: scrubbing, a timer
      firing and a jump failing leave it as it was. */
  lemma ScrubPathWritesOnlyOnCompletion(c: Scrollbar, e: Event)
    requires e.Scrub? || e.TimerFire? || e.JumpFail?
    ensures Step(c, e).slice == c.slice
    ensures Step(c, e).listeners == c.listeners
  {
  }

  /** A `STACK_SCROLL` on the element writes the new index verbatim, unclamped, with the
      count of the current image ids, exactly when a stack viewport is mounted on that
      element; in every other case the slice is left alone. */
  lemma StackScrollWrites(c: Scrollbar, element: ElementHandle, index: int)
    requires Inv(c)
    ensures var data := c.props.viewportData;
            Step(c, StackScroll(element, index)).slice
            == if c.mounted && data.Some? && data.value.viewportType == Stack && element == c.props.element
               then SliceState(index, |data.value.imageIds|)
               else c.slice
  {
  }

  /** A `VOLUME_NEW_IMAGE` on the element writes both fields verbatim exactly when an
      orthographic viewport is mounted on that element. */
  lemma VolumeNewImageWrites(c: Scrollbar, element: ElementHandle, index: int, count: int)
    requires Inv(c)
    ensures var data := c.props.viewportData;
            Step(c, VolumeNewImage(element, index, count)).slice
            == if c.mounted && data.Some? && data.value.viewportType == Orthographic && element == c.props.element
               then SliceState(index, count)
               else c.slice
  {
  }

  /** After any sequence of events from the first render, at most one handler and at
      most one debounce timer are held, the handler's kind matches the current viewport
      type, and nothing stays registered after unmounting. */
  lemma ListenersAfterAnyTrace(props: Props, viewport: Option<LiveViewport>, initial: SliceState, events: seq<Event>)
    ensures var c := Run(Mount(props, viewport, initial), events);
            && |c.listeners| <= 1
            && |c.debounce.timers| <= 1
            && (!c.mounted ==> c.listeners == [])
            && (forall l :: l in c.listeners ==>
                  && c.props.viewportData == Some(l.data)
                  && l.element == c.props.element
                  && (l.name == StackScrollEvent <==> l.data.viewportType == Stack))
  {
    MountEstablishesInv(props, viewport, initial);
    RunPreservesInv(Mount(props, viewport, initial), events);
    Debouncer.AtMostOneTimer(Run(Mount(props, viewport, initial), events).debounce);
  }

  /** Switching from stack data to orthographic data removes the `STACK_SCROLL` handler
      and registers the `VOLUME_NEW_IMAGE` handler, each once. */
  lemma SwitchStackToVolume(c: Scrollbar, props: Props, viewport: Option<LiveViewport>)
    requires Inv(c) && c.mounted
    requires c.props.viewportData.Some? && c.props.viewportData.value.viewportType == Stack
    requires props.viewportData.Some? && props.viewportData.value.viewportType == Orthographic
    ensures c.listeners == [Listener(StackScrollEvent, c.props.element, c.props.viewportData.value)]
    ensures Step(c, Rerender(props, viewport)).listeners
            == [Listener(VolumeNewImageEvent, props.element, props.viewportData.value)]
  {
    StepPreservesInv(c, Rerender(props, viewport));
  }

  /** Settling a jump, by resolving or rejecting, removes exactly that jump from the
      in-flight collection and leaves the timers, the reference, the handlers and the
      props as they were, so a later timer still fires and starts its own jump. */
  lemma SettleLeavesRestAlone(c: Scrollbar, e: Event)
    requires e.JumpComplete? || e.JumpFail?
    ensures Step(c, e).debounce.timers == c.debounce.timers
    ensures Step(c, e).debounce.slideTimeout == c.debounce.slideTimeout
    ensures Step(c, e).debounce.nextTimerId == c.debounce.nextTimerId
    ensures Step(c, e).listeners == c.listeners
    ensures Step(c, e).props == c.props
    ensures Step(c, e).mounted == c.mounted
    ensures e.jump < |c.debounce.inFlight| ==>
              multiset(Step(c, e).debounce.inFlight) + multiset{c.debounce.inFlight[e.jump]}
              == multiset(c.debounce.inFlight)
    ensures e.jump >= |c.debounce.inFlight| ==> Step(c, e) == c
    ensures e.JumpFail? ==> Step(c, e).slice == c.slice
  {
  }

  /** Rendering again with the same props re-runs no effect. */
  lemma RerenderSamePropsIsNoOp(c: Scrollbar, viewport: Option<LiveViewport>)
    requires c.mounted
    ensures Step(c, Rerender(c.props, viewport)) == c
  {
  }

  /** A render with `props`. When `viewportIndex` or `viewportData` changed, the
      resolution effect runs: a stack hit gives the first occurrence of the current
      image id and the number of image ids, an orthographic hit copies the slice data,
      and every other case keeps the slice. When neither changed, the slice is kept.
      The handlers afterwards are exactly those the new props call for, and the
      debounce state is never touched. */
  lemma RerenderRunsChangedEffects(c: Scrollbar, props: Props, viewport: Option<LiveViewport>)
    requires Inv(c) && c.mounted
    ensures props.viewportIndex == c.props.viewportIndex && props.viewportData == c.props.viewportData
            ==> Step(c, Rerender(props, viewport)).slice == c.slice
    ensures (props.viewportIndex != c.props.viewportIndex || props.viewportData != c.props.viewportData)
            && StackHit(props.viewportData, viewport)
            ==> && Step(c, Rerender(props, viewport)).slice.numberOfSlices == |props.viewportData.value.imageIds|
                && FirstOccurrence(props.viewportData.value.imageIds, viewport.value.currentImageId,
                                   Step(c, Rerender(props, viewport)).slice.imageIndex)
    ensures (props.viewportIndex != c.props.viewportIndex || props.viewportData != c.props.viewportData)
            && OrthographicHit(props.viewportData, viewport)
            ==> Step(c, Rerender(props, viewport)).slice == viewport.value.volumeSliceData.value
    ensures !StackHit(props.viewportData, viewport) && !OrthographicHit(props.viewportData, viewport)
            ==> Step(c, Rerender(props, viewport)).slice == c.slice
    ensures Step(c, Rerender(props, viewport)).listeners == Subscriptions(props.viewportData, props.element)
    ensures Step(c, Rerender(props, viewport)).props == props
    ensures Step(c, Rerender(props, viewport)).debounce == c.debounce
  {
    StepPreservesInv(c, Rerender(props, viewport));
  }

  /** New viewport data re-runs the resolution effect: a stack viewport whose current
      image id is missing from the new image ids leaves the slice as it was. */
  lemma RerenderStackMissKeepsSlice(c: Scrollbar, props: Props, viewport: LiveViewport)
    requires c.mounted && props.viewportData != c.props.viewportData
    requires props.viewportData.Some? && props.viewportData.value.viewportType == Stack
    requires viewport.currentImageId !in props.viewportData.value.imageIds
    ensures Step(c, Rerender(props, Some(viewport))).slice == c.slice
  {
  }

  /** Unmounting removes the handlers but does not clear the pending timer: it still
      fires afterwards and starts its jump. */
  lemma UnmountKeepsPendingTimer(c: Scrollbar, id: Debouncer.TimerId)
    requires Inv(c) && c.mounted && id in c.debounce.timers
    ensures var u := Step(c, Unmount);
            && u.listeners == []
            && u.debounce == c.debounce
            && Step(u, TimerFire(id, true)).debounce.inFlight == c.debounce.inFlight + [c.debounce.timers[id]]
  {
    TeardownRemovesSubscriptions(c.props.viewportData, c.props.element);
  }

  /** Completions are not guarded: a jump resolving after a newer `VOLUME_NEW_IMAGE`
      overwrites that event's state with its own target and the count of its snapshot. */
  lemma StaleCompletionOverwritesVolumeEvent(c: Scrollbar, k: nat, index: int, count: int)
    requires Inv(c) && c.mounted && k < |c.debounce.inFlight|
    requires c.props.viewportData.Some? && c.props.viewportData.value.viewportType == Orthographic
    ensures var newer := Step(c, VolumeNewImage(c.props.element, index, count));
            var j := c.debounce.inFlight[k];
            && newer.slice == SliceState(index, count)
            && Step(newer, JumpComplete(k)).slice == SliceState(j.target, j.snapshot.numberOfSlices)
  {
    VolumeNewImageWrites(c, c.props.element, index, count);
  }

  /** A concrete instance: on an orthographic viewport showing image 0 of 5, a scrub to
      3 fires its jump; `VOLUME_NEW_IMAGE {7, 12}` then arrives; the late completion
      replaces it with index 3 of 5. */
  lemma StaleCompletionExample()
    ensures var data := ViewportData(0, Orthographic, []);
            var props := Props(0, Some(data), 0);
            var c := Mount(props, Some(LiveViewport("", Some(SliceState(0, 5)))), SliceState(0, 0));
            var fired := Run(c, [Scrub(3), TimerFire(1, true)]);
            var newer := Step(fired, VolumeNewImage(0, 7, 12));
            && newer.slice == SliceState(7, 12)
            && Step(newer, JumpComplete(0)).slice == SliceState(3, 5)
  {
    var data := ViewportData(0, Orthographic, []);
    var props := Props(0, Some(data), 0);
    var c := Mount(props, Some(LiveViewport("", Some(SliceState(0, 5)))), SliceState(0, 0));
    MountEstablishesInv(props, Some(LiveViewport("", Some(SliceState(0, 5)))), SliceState(0, 0));
    RunPreservesInv(c, [Scrub(3), TimerFire(1, true)]);
    var fired := Run(c, [Scrub(3), TimerFire(1, true)]);
    assert fired.debounce.inFlight == [Debouncer.JumpRequest(3, SliceState(0, 5))];
    StaleCompletionOverwritesVolumeEvent(fired, 0, 7, 12);
  }
}

=== FILE: resolver.dfy ===
/** Resolution of the slice position when the viewport data changes: the first
    `useEffect` of the scrollbar. The calls into the viewport service become the
    `LiveViewport` answers passed in. */
module Resolver {
  import opened Wrappers
  import opened Slices

  type ImageId = string

  /** `viewportData.viewportType`; every type other than STACK and ORTHOGRAPHIC is
      folded into `OtherViewportType`. */
  datatype ViewportType = Stack | Orthographic | OtherViewportType

  /** `viewportData`. `identity` stands for the object's identity, which is what the
      effects' dependency lists compare: a fresh object carries a fresh identity. An
      object is assumed never to be mutated in place, so equal identities mean equal
      contents. */
  datatype ViewportData = ViewportData(identity: nat, viewportType: ViewportType, imageIds: seq<ImageId>)

  /** What the live viewport found under `viewportIndex` answers: its current image id
      (`getCurrentImageId`) and the volumetric slice data derived from it
      (`getImageSliceDataForVolumeViewport`, which may report nothing). */
  datatype LiveViewport = LiveViewport(currentImageId: ImageId, volumeSliceData: Option<SliceState>)

  /** `i` is the first position of `x` in `xs`. */
  predicate FirstOccurrence(xs: seq<ImageId>, x: ImageId, i: int)
  {
    0 <= i < |xs| && xs[i] == x && x !in xs[..i]
  }

  /** `Array.prototype.indexOf` with string equality: the first position, or -1. */
  function IndexOf(xs: seq<ImageId>, x: ImageId): (r: int)
    ensures r == -1 <==> x !in xs
    ensures r != -1 ==> FirstOccurrence(xs, x, r)
  {
    if |xs| == 0 then -1
    else if xs[0] == x then 0
    else
      var r := IndexOf(xs[1..], x);
      assert xs == [xs[0]] + xs[1..];
      if r == -1 then -1
      else
        assert xs[..r + 1] == [xs[0]] + xs[1..][..r];
        r + 1
  }

  /** The first position is unique, so `IndexOf` is determined by it. */
  lemma IndexOfIsFirstOccurrence(xs: seq<ImageId>, x: ImageId, i: int)
    requires 0 <= i
    ensures IndexOf(xs, x) == i <==> FirstOccurrence(xs, x, i)
  {
  }

  /** A stack viewport whose current image id is among the data's image ids. */
  predicate StackHit(data: Option<ViewportData>, viewport: Option<LiveViewport>)
  {
    && data.Some? && viewport.Some?
    && data.value.viewportType == Stack
    && viewport.value.currentImageId in data.value.imageIds
  }

  /** An orthographic viewport for which slice data could be derived. */
  predicate OrthographicHit(data: Option<ViewportData>, viewport: Option<LiveViewport>)
  {
    && data.Some? && viewport.Some?
    && data.value.viewportType == Orthographic
    && viewport.value.volumeSliceData.Some?
  }

  /** The slice state after the resolution effect has run on `data` with the live
      viewport `viewport` (None when no viewport is found), starting from `s`. */
  function Resolve(data: Option<ViewportData>, viewport: Option<LiveViewport>, s: SliceState): (r: SliceState)
    ensures StackHit(data, viewport) ==>
              && r.numberOfSlices == |data.value.imageIds|
              && FirstOccurrence(data.value.imageIds, viewport.value.currentImageId, r.imageIndex)
              && Valid(r)
    ensures OrthographicHit(data, viewport) ==> r == viewport.value.volumeSliceData.value
    ensures !StackHit(data, viewport) && !OrthographicHit(data, viewport) ==> r == s
  {
    if data.None? || viewport.None? then s
    else
      match data.value.viewportType
      case Stack =>
        var index := IndexOf(data.value.imageIds, viewport.value.currentImageId);
        if index == -1 then s
        else SliceState(index, |data.value.imageIds|)
      case Orthographic =>
        (match viewport.value.volumeSliceData
         case None => s
         case Some(sliceData) => SliceState(sliceData.imageIndex, sliceData.numberOfSlices))
      case OtherViewportType => s
  }

  /** Running the effect a second time with the same answers changes nothing more. */
  lemma ResolveIdempotent(data: Option<ViewportData>, viewport: Option<LiveViewport>, s: SliceState)
    ensures Resolve(data, viewport, Resolve(data, viewport, s)) == Resolve(data, viewport, s)
  {
  }

  /** The state the effect writes does not depend on the prior state: only a miss
      keeps it. */
  lemma ResolveHitForgetsPrior(data: Option<ViewportData>, viewport: Option<LiveViewport>, s: SliceState, t: SliceState)
    requires StackHit(data, viewport) || OrthographicHit(data, viewport)
    ensures Resolve(data, viewport, s) == Resolve(data, viewport, t)
  {
    if StackHit(data, viewport) {
      var ids := data.value.imageIds;
      var id := viewport.value.currentImageId;
      IndexOfIsFirstOccurrence(ids, id, Resolve(data, viewport, s).imageIndex);
      IndexOfIsFirstOccurrence(ids, id, Resolve(data, viewport, t).imageIndex);
    }
  }
}

=== FILE: slices.dfy ===
/** The slice position the image scrollbar displays, and the values it hands to the widget. */
module Slices {

  /** `imageSliceData`: the index of the displayed image and the number of images.
      Both are plain integers, because the event paths write whatever the viewport
      reports without clamping it. */
  datatype SliceState = SliceState(imageIndex: int, numberOfSlices: int)

  /** A well-formed position: a non-negative count, and an index inside it when the
      count is positive. */
  predicate Valid(s: SliceState)
  {
    && 0 <= s.numberOfSlices
    && (0 < s.numberOfSlices ==> 0 <= s.imageIndex < s.numberOfSlices)
  }

  function MaxInt(a: int, b: int): int
  {
    if a >= b then a else b
  }

  /** The `max` handed to the scrollbar widget. The source tests `numberOfSlices` for
      JavaScript truthiness, so a zero count yields 0 and any other count yields
      `numberOfSlices - 1`; a negative count written by an event leaks through. */
  function ScrollbarMax(s: SliceState): (m: int)
    ensures 0 <= s.numberOfSlices ==> m == MaxInt(s.numberOfSlices - 1, 0)
    ensures 0 <= m <==> 0 <= s.numberOfSlices
    ensures m <= MaxInt(s.numberOfSlices, 0)
  {
    if s.numberOfSlices != 0 then s.numberOfSlices - 1 else 0
  }

  /** The `value` handed to the widget always lies within `[0, max]` for a well-formed
      position with at least one slice. */
  lemma ValueWithinScrollbar(s: SliceState)
    requires Valid(s) && 0 < s.numberOfSlices
    ensures 0 <= s.imageIndex <= ScrollbarMax(s)
  {
  }
}

=== FILE: wrappers.dfy ===
/** The optional value used wherever the scrollbar reads something that may be missing:
    `viewportData`, the live viewport, volumetric slice data, the pending-timer reference. */
module Wrappers {

  datatype Option<+T> = None | Some(value: T)
}
